=== FILE: README.md ===
# Stock price streamer — a Dafny model

This project models the publish/subscribe core of a small stock price
streamer. An ASP.NET server keeps a catalog of ten stocks, moves their prices
on a timer, and pushes each change over WebSockets to the clients subscribed
to that stock. A React client toggles its subscriptions with plain-text
commands and folds the updates it receives into a table.

The model is functional. Registries, the catalog and the client state are
immutable maps, multisets, sets and sequences. Each operation of the source
is a pure transition function.

- `Stocks` (stocks.dfy): the shared `Stock` record. Prices are integer
  cents: the server's decimal arithmetic only ever adds whole cents, so it is
  exact here too. The name is optional because the broadcast payload leaves
  it unset. The module also defines the server-to-client wire message (a JSON
  stock or a plain-text notice).
- `Text` (text.dfy): .NET's `int.TryParse` with its default integer
  style, and the decimal rendering JavaScript gives an integer in
  `'subscribe:' + id`. The two are proved to round-trip for every 32-bit id.
- `PriceMonitor` (monitor.dfy): the seed catalog, `GetStock`, the tick
  and the start/stop/dispose flags. The random draw (`Random.Next(-10, 11)`,
  a subset type `Delta` of [-10, 10]) and the clock are inputs indexed by
  draw number. The dictionary's key enumeration order is an input as well.
- `SocketManager` (sockets.dfy): the connection registry (a set of ids)
  and the subscription registry (a map from connection id to a multiset,
  because a `ConcurrentBag` keeps duplicates). It also holds the receive
  loop as `Step`/`Serve`, the whole connection as `Session`, and the
  broadcast filter as `Recipients` and `Broadcast`.
- `PriceTracker` (tracker.dfy): the client's subscription toggle and the
  message reducer. The reducer takes its price comparison as a parameter.
- `EndToEnd` (endtoend.dfy): the client's messages are the server's
  commands, and both sides keep agreeing on what is subscribed.

The model follows the code as written; in particular:

- A `subscribe:<id>` for an id outside the catalog sends no error reply.
  The id is recorded, `GetStock` throws, the exception ends the receive
  loop, and the teardown removes the connection from both registries.
- Subscriptions are a bag, not a set. Subscribing twice stores two copies,
  and one `unsubscribe` rebuilds the bag without any of them.
- Timestamps are whatever the clock returns. Nothing makes them increase.
- `Dispose` leaves the `updating` flag as it was. A monitor disposed while
  updating therefore ignores `Start` and `Stop` from then on. A monitor
  disposed while stopped can still be started. The timer this arms is never
  disarmed by a second `Dispose`, but its ticks change nothing.

## Model

| member | source | states |
|---|---|---|
| Text.TryParseInt32 | api/CA.WEB.API/Socket/WebSocketsManager.cs:141 | a token that parses yields a 32-bit value and contains a digit |
| Text.IntToString | ui/ca-react-ui/src/components/priceTracker/PriceTracker.tsx:45 | the client's rendering of an id is non-empty, starts with '-' exactly for negative ids, and is all digits otherwise |
| Text.ParseIntToString | api/CA.WEB.API/Socket/WebSocketsManager.cs:141 | the server's TryParse reads back every 32-bit integer the client renders as that same integer |
| Text.LeadingWhiteIgnored | api/CA.WEB.API/Socket/WebSocketsManager.cs:166 | TryParse skips leading white space: a white character in front of a token does not change its parse |
| Text.NoDigitsNoParse | api/CA.WEB.API/Socket/WebSocketsManager.cs:141 | a token without any digit, the empty one included, fails to parse |
| Stocks.PriceUpdate | api/CA.WEB.API/Socket/WebSocketsManager.cs:43 | the broadcast payload carries the stock's id, price and time, and no name |
| PriceMonitor.Create | api/CA.WEB.API/Service/StockPriceMonitor.cs:26-39 | the seed catalog has exactly the keys 1 to 10, every stock sits under its own id with a name and a positive price, and the monitor starts idle, without a timer and not disposed |
| PriceMonitor.SeedCatalog | api/CA.WEB.API/Service/StockPriceMonitor.cs:29-38 | id 1 is Tesla at 122.00, and looking up any id outside 1 to 10 fails |
| PriceMonitor.GetStock | api/CA.WEB.API/Service/StockPriceMonitor.cs:41-45 | lookup succeeds exactly for present keys and returns the stored stock; an absent key fails with that id |
| PriceMonitor.GetStockMatchesId | api/CA.WEB.API/Service/StockPriceMonitor.cs:41-45 | in a well-keyed catalog a successful lookup returns the stock whose id was requested |
| PriceMonitor.Walk | api/CA.WEB.API/Service/StockPriceMonitor.cs:73-83 | the loop over the enumerated keys moves each listed stock by its own draw and clock reading, leaves the key set and unlisted stocks alone, and raises one event per key, in order, with the stock's new state |
| PriceMonitor.Tick | api/CA.WEB.API/Service/StockPriceMonitor.cs:67-84 | a disposed monitor's tick changes nothing and raises nothing; otherwise every stock moves by exactly its draw, is stamped with its clock reading, and is raised once; the key set and the flags are unchanged |
| PriceMonitor.TickMovesPricesByAtMostTenCents | api/CA.WEB.API/Service/StockPriceMonitor.cs:73-80 | after a tick every price is within ten cents of its old value in either direction, not clamped, and every id and name is unchanged |
| PriceMonitor.TickEventsHaveDistinctIds | api/CA.WEB.API/Service/StockPriceMonitor.cs:73-90 | a live tick raises as many events as the catalog has stocks, no two about the same stock |
| PriceMonitor.TickRaisesEveryStock | api/CA.WEB.API/Service/StockPriceMonitor.cs:73-90 | every catalog stock is raised by a live tick, and its event carries its state after the update |
| PriceMonitor.TickKeepsWellKeyed | api/CA.WEB.API/Service/StockPriceMonitor.cs:73-80 | a tick keeps every stock stored under its own id |
| PriceMonitor.Start | api/CA.WEB.API/Service/StockPriceMonitor.cs:47-54 | start leaves the monitor updating and keeps its catalog and disposal; from idle it arms the timer; when already updating it changes nothing |
| PriceMonitor.Stop | api/CA.WEB.API/Service/StockPriceMonitor.cs:56-64 | stop changes nothing when not updating; on a consistent live monitor that is updating it clears both the timer and the flag |
| PriceMonitor.Dispose | api/CA.WEB.API/Service/StockPriceMonitor.cs:92-109 | dispose sets the disposed flag, disarms the timer the first time, leaves updating as it was, and does nothing a second time |
| PriceMonitor.FlagsConsistentPreserved | api/CA.WEB.API/Service/StockPriceMonitor.cs:47-103 | start, stop and dispose keep "a timer exists only while updating", and "updating exactly when a timer exists" until disposal |
| PriceMonitor.StartThenStop | api/CA.WEB.API/Service/StockPriceMonitor.cs:47-64 | start then stop from an idle monitor returns to not updating with no timer |
| PriceMonitor.StartIdempotent | api/CA.WEB.API/Service/StockPriceMonitor.cs:47-54 | starting twice is starting once |
| PriceMonitor.DisposeIdempotent | api/CA.WEB.API/Service/StockPriceMonitor.cs:92-103 | disposing twice is disposing once |
| PriceMonitor.DisposedWhileUpdatingIsInert | api/CA.WEB.API/Service/StockPriceMonitor.cs:47-103 | after a live monitor that was updating is disposed, start and stop change nothing and its ticks change and raise nothing |
| SocketManager.Classify | api/CA.WEB.API/Socket/WebSocketsManager.cs:138-194 | a recognised subscribe or unsubscribe command carries a 32-bit id; anything else is kept whole as an unknown message |
| SocketManager.ClassifySubscribe | api/CA.WEB.API/Socket/WebSocketsManager.cs:138-141 | a message "subscribe:" + token is a subscribe command for the token's parse, or a malformed one when the token does not parse |
| SocketManager.ClassifyUnsubscribe | api/CA.WEB.API/Socket/WebSocketsManager.cs:162-166 | a message "unsubscribe:" + token is never taken for a subscribe; it is an unsubscribe for the token's parse, or a malformed one |
| SocketManager.Accept | api/CA.WEB.API/Socket/WebSocketsManager.cs:73-75 | accepting registers the connection; under a fresh id its bag is empty, and no other entry changes |
| SocketManager.Teardown | api/CA.WEB.API/Socket/WebSocketsManager.cs:98-101 | teardown removes the connection from both registries and keeps every other entry |
| SocketManager.AcceptThenTeardown | api/CA.WEB.API/Socket/WebSocketsManager.cs:73-101 | accepting a fresh id and tearing it down restores both registries exactly |
| SocketManager.Handle | api/CA.WEB.API/Socket/WebSocketsManager.cs:128-194 | one text message changes at most this connection's bag, adds or removes no registry entry, and gets at most one reply |
| SocketManager.Step | api/CA.WEB.API/Socket/WebSocketsManager.cs:122-199 | one frame changes only this connection's bag and sends at most one reply; binary and close frames change nothing |
| SocketManager.Serve | api/CA.WEB.API/Socket/WebSocketsManager.cs:122-200 | the receive loop changes only this connection's bag and sends at most one reply per frame read |
| SocketManager.Session | api/CA.WEB.API/Socket/WebSocketsManager.cs:71-105 | whatever the client sends, once the connection ends both registries are exactly as before, less this connection |
| SocketManager.SubscribeKnownStock | api/CA.WEB.API/Socket/WebSocketsManager.cs:140-151 | subscribing to a catalog id adds one copy to the bag, keeps the session going, and the single reply is that stock's full snapshot, name included |
| SocketManager.SubscribeAddsOneCopy | api/CA.WEB.API/Socket/WebSocketsManager.cs:141-145 | subscribing to a catalog id keeps the session going and adds exactly one copy of the id to the bag |
| SocketManager.SubscribeUnknownStock | api/CA.WEB.API/Socket/WebSocketsManager.cs:143-148 | subscribing to an id outside the catalog adds it to the bag, sends no reply and ends the receive loop with a not-found fault, so later frames are never read |
| SocketManager.UnknownStockEndsSession | api/CA.WEB.API/Socket/WebSocketsManager.cs:94-101 | a session whose first message subscribes to an unknown id ends with the connection gone from both registries |
| SocketManager.SubscribeMalformed | api/CA.WEB.API/Socket/WebSocketsManager.cs:154-159 | a subscribe token that does not parse changes nothing and gets exactly "Format of the stock ID is invalid." |
| SocketManager.UnsubscribeRemovesAllCopies | api/CA.WEB.API/Socket/WebSocketsManager.cs:165-181 | unsubscribe leaves no copy of the id and every other id with its multiplicity; an id that was absent changes nothing; there is never a reply |
| SocketManager.UnsubscribeMalformed | api/CA.WEB.API/Socket/WebSocketsManager.cs:184-188 | an unsubscribe token that does not parse changes nothing and gets exactly "Invalid stock ID format." |
| SocketManager.UnknownMessage | api/CA.WEB.API/Socket/WebSocketsManager.cs:190-194 | any other message changes nothing and gets exactly "Message unknown: " followed by the message |
| SocketManager.SubscribeTwice | api/CA.WEB.API/Socket/WebSocketsManager.cs:145-174 | two subscribes give the same membership answers as one while storing two copies, and a single unsubscribe then removes the id |
| SocketManager.SubscriberIsRecipient | api/CA.WEB.API/Socket/WebSocketsManager.cs:47-51 | right after subscribing, a registered connection is a recipient of the stock's updates exactly when it is open |
| SocketManager.UnsubscriberIsNotRecipient | api/CA.WEB.API/Socket/WebSocketsManager.cs:170-174 | right after unsubscribing, a connection is not a recipient of the stock's updates |
| SocketManager.EndedSessionIsNotRecipient | api/CA.WEB.API/Socket/WebSocketsManager.cs:98-101 | after its session a connection receives nothing, and every other connection's deliveries are as before |
| SocketManager.Recipients | api/CA.WEB.API/Socket/WebSocketsManager.cs:47-51 | the update is meant for exactly the registered, open connections whose subscriptions hold the stock at least once |
| SocketManager.Broadcast | api/CA.WEB.API/Socket/WebSocketsManager.cs:41-63 | the update reaches each connection that is registered, subscribed to the stock and open, exactly once and no other; the payload is the stock with id, price and time but no name; a failing send neither stops nor changes the sends to the others |
| PriceTracker.Toggle | ui/ca-react-ui/src/components/priceTracker/PriceTracker.tsx:40-61 | toggling removes a subscribed id and sends "unsubscribe:" + id, or adds an unsubscribed one and sends "subscribe:" + id; no other id changes membership |
| PriceTracker.ToggleTwice | ui/ca-react-ui/src/components/priceTracker/PriceTracker.tsx:41-60 | toggling the same id twice restores the set, and the two messages are one subscribe and one unsubscribe |
| PriceTracker.MapRows | ui/ca-react-ui/src/components/priceTracker/PriceTracker.tsx:25-32 | the map keeps length and order; qualifying rows take the incoming price and time and the others are unchanged |
| PriceTracker.Merge | ui/ca-react-ui/src/components/priceTracker/PriceTracker.tsx:23-34 | the reducer keeps length, order, ids and names, leaves every non-qualifying row (other id, or a price the comparison finds equal) untouched, gives each qualifying row the incoming price and time, and returns the previous list when none qualifies |
| PriceTracker.AsWrittenDropsPriceChange | ui/ca-react-ui/src/components/priceTracker/PriceTracker.tsx:26 | with the comparison as written, a row at 122.00 stays at 122.00 when 122.05 arrives |
| PriceTracker.MergeShowsEveryPriceChange | ui/ca-react-ui/src/components/priceTracker/PriceTracker.tsx:26-29 | with an exact price comparison, every row of the incoming id ends at the incoming price, with a fresh time when the price moved |
| PriceTracker.OnMessage | ui/ca-react-ui/src/components/priceTracker/PriceTracker.tsx:13-38 | with the comparison as written, a JSON stock leaves rows of other ids alone; a row of its id whose price is the incoming price truncated to whole units keeps its state, and every other row of its id takes the incoming price; a row that changes keeps its id and name and takes the incoming price and time; a plain-text reply, which fails to parse as JSON, leaves the list as it was |
| PriceTracker.OnMessageCorrected | ui/ca-react-ui/src/components/priceTracker/PriceTracker.tsx:13-38 | with the exact comparison that line 26 evidently intends, a JSON stock sets every row of its id to the incoming price, a row that changes keeps its id and name and takes the incoming time, rows of other ids stay as they were, and a plain-text reply leaves the list as it was |
| PriceTracker.WholeUnitCents | ui/ca-react-ui/src/components/priceTracker/PriceTracker.tsx:26 | `parseInt` of a decimal price yields a whole number of units within one unit of the price, toward zero |
| PriceTracker.AsWrittenDiffers | ui/ca-react-ui/src/components/priceTracker/PriceTracker.tsx:26 | the comparison as written finds a row with a fractional price always changed, finds a row unchanged only when it lies within one unit of the incoming price, and does find a whole-unit row price unchanged when the incoming price lies in that same unit (toward zero) |
| EndToEnd.ToggleMessageRoundTrip | ui/ca-react-ui/src/components/priceTracker/PriceTracker.tsx:43-58 | for every 32-bit id, the server classifies the toggle's message as the command the toggle meant, for the same id |
| EndToEnd.ToggleKeepsAgreement | api/CA.WEB.API/Socket/WebSocketsManager.cs:138-181 | when the server processes a client toggle for a catalog id, the session goes on, and the client's set and the server's bag still name the same ids |
| EndToEnd.SubscribeSnapshotReachesRows | ui/ca-react-ui/src/components/priceTracker/PriceTracker.tsx:23-34 | the server answers a client subscribe with exactly one reply, and on the client as written each row of that stock ends at its catalog price or keeps its state when that is the catalog price truncated to whole units |
| EndToEnd.SubscribeSnapshotReachesCorrectedRows | ui/ca-react-ui/src/components/priceTracker/PriceTracker.tsx:23-34 | on the corrected client of the finding below, the one reply to a subscribe sets every row of that stock to its catalog price |
| EndToEnd.BroadcastUpdateReachesRows | api/CA.WEB.API/Socket/WebSocketsManager.cs:43 | on the client as written, a broadcast price update leaves the other stocks' rows as they were, and each row of that stock ends at the new price or keeps its state when that is the new price truncated to whole units |
| EndToEnd.BroadcastUpdateReachesCorrectedRows | api/CA.WEB.API/Socket/WebSocketsManager.cs:43 | on the corrected client of the finding below, a broadcast price update sets every row of that stock to the new price |

## Left out

- WebSocket I/O is left out: `ReceiveAsync`, `SendAsync`, `CloseAsync`, UTF-8 byte buffers, and splitting of messages longer than the 4 KB receive buffer. Messages are strings, and a session's input is the finite list of frames read before the transport goes away.
- A failed `SendAsync` inside the receive loop is not modelled. Such a send would end the session like any other exception. In the broadcast a failed send is modelled, as an input set of failing connections.
- Concurrency is left out: the thread safety of the concurrent dictionaries and bag, the timer's one-second cadence, and the `async void` event fan-out. Operations apply one at a time. The catalog is fixed while a session's frames are processed.
- `DateTime.UtcNow` and `Random` are inputs. Nothing is claimed about timestamp order.
- JSON serialisation is left out. Payloads are `Stock` records, and a plain-text reply is taken to fail `JSON.parse` on the client, as all of the server's replies do.
- The log messages, including the exception-message matching of the `WebSocketException` handler, are left out. They change no state.
- `StartsWith` is modelled as an ordinal comparison. .NET's default comparison is culture-sensitive and may ignore zero-width characters.
- `TryParse` uses the invariant culture's "+" and "-" signs. Other cultures' sign strings are not modelled.
- PriceMonitor.Tick: the `TryGetValue` test inside the loop is not modelled. Keys come from the same dictionary and are never removed, so it always succeeds one step at a time.
- PriceMonitor.Tick: the timer is modelled as a flag. When ticks happen is not modelled.
- The socket manager's own `Dispose` is left out. It only detaches the event handler, and event wiring is not modelled.
- Program.cs, StockPriceUpdateService.cs and the interface files are not part of this model. They cover wiring, a start/stop wrapper and declarations.
- useWebsocket.tsx is not part of this model. Its `sendMessage` drops a message while the socket is not open, so Toggle's message is what the client asks to send.
- The render components are not part of this model. Neither is the client's seed list of stocks.
- Text.IntToString covers integral ids only, and it (so also the message PriceTracker.Toggle builds) matches JavaScript's rendering only for ids of magnitude below 10^21: from 10^21 on JavaScript writes exponent form (`1e+21`). The client's ids are the table's small integer ids.
- PriceTracker.AsWrittenDiffers truncates the price in cents toward zero. This matches the client only for prices below 10^13 units: `JSON.parse` reads the price as a double, which keeps a two-decimal price exact only up to 15 significant digits, and from about 2^49 units a price with cents parses to a whole number.

## Findings

| source | as written | input that shows it | evidently intended | confidence | as-written member | corrected member |
|---|---|---|---|---|---|---|
| ui/ca-react-ui/src/components/priceTracker/PriceTracker.tsx:26 | `parseInt(Price) !== stock.price` truncates the incoming price to whole units and compares it with the row's full price, so a move to the same whole-unit amount is not shown when the row sits at a whole-unit price | row price 122.00, incoming Price 122.05 for the same id: the row stays at 122.00 | `Price !== stock.price` | medium, not executed | PriceTracker.AsWrittenDropsPriceChange | PriceTracker.OnMessageCorrected |

=== FILE: endtoend.dfy ===
/**
 * Properties that span the browser client and the server: the messages the
 * client's toggle emits are the commands the server's receive loop expects,
 * and the two sides keep agreeing on what the connection is subscribed to.
 */
module EndToEnd {
  import opened Text
  import opened Stocks
  import PriceMonitor
  import SocketManager
  import PriceTracker

  /**
   * For every 32-bit id, the message the toggle emits is classified by the
   * server as the command the toggle meant, for that same id.
   */
  lemma ToggleMessageRoundTrip(subscribed: set<int>, id: int)
    requires IsInt32(id)
    ensures SocketManager.Classify(PriceTracker.Toggle(subscribed, id).message)
      == (if id in subscribed then SocketManager.Unsubscribe(id) else SocketManager.Subscribe(id))
  {
    ParseIntToString(id);
    SocketManager.ClassifySubscribe(IntToString(id));
    SocketManager.ClassifyUnsubscribe(IntToString(id));
  }

  /** The client's set and the server's bag name the same stock ids. */
  predicate Agree(subscribed: set<int>, bag: multiset<int>)
  {
    (forall x :: x in subscribed ==> x in bag) && (forall x :: x in bag ==> x in subscribed)
  }

  /**
   * When the server processes the message of a client toggle for a catalog
   * id, the session goes on and the two sides still agree, however many
   * copies the bag holds.
   */
  lemma ToggleKeepsAgreement(subscribed: set<int>, srv: SocketManager.Server, catalog: map<int, Stock>, conn: SocketManager.ConnId, id: int)
    requires conn in srv.subscriptions
    requires Agree(subscribed, srv.subscriptions[conn])
    requires IsInt32(id) && id in catalog
    ensures var t := PriceTracker.Toggle(subscribed, id);
      var r := SocketManager.Step(srv, catalog, conn, SocketManager.TextFrame(t.message));
      r.outcome == SocketManager.Continue && Agree(t.subscribed, r.server.subscriptions[conn])
  {
    var t := PriceTracker.Toggle(subscribed, id);
    var before := srv.subscriptions[conn];
    var r := SocketManager.Step(srv, catalog, conn, SocketManager.TextFrame(t.message));
    var after := r.server.subscriptions[conn];
    ParseIntToString(id);
    if id in subscribed {
      SocketManager.UnsubscribeRemovesAllCopies(srv, catalog, conn, IntToString(id), id);
      assert r.outcome == SocketManager.Continue;
      assert forall x :: x != id ==> after[x] == before[x];
    } else {
      SocketManager.SubscribeAddsOneCopy(srv, catalog, conn, IntToString(id), id);
      assert after == before + multiset{id};
    }
  }

  /**
   * The snapshot the server sends in answer to a client's subscribe reaches
   * the client's rows of that stock at once: each ends at the stock's catalog
   * price, or keeps its previous state when that state's price is the catalog
   * price truncated to whole units (the client's comparison as written).
   */
  lemma SubscribeSnapshotReachesRows(rows: seq<PriceTracker.Row>, subscribed: set<int>, srv: SocketManager.Server, catalog: map<int, Stock>, conn: SocketManager.ConnId, id: int)
    requires conn in srv.subscriptions && id !in subscribed
    requires PriceMonitor.WellKeyed(catalog)
    requires IsInt32(id) && id in catalog
    ensures var t := PriceTracker.Toggle(subscribed, id);
      var r := SocketManager.Step(srv, catalog, conn, SocketManager.TextFrame(t.message));
      && |r.replies| == 1
      && var shown := PriceTracker.OnMessage(rows, r.replies[0]);
      forall i :: 0 <= i < |rows| && rows[i].id == id ==>
        || shown[i].price == catalog[id].price
        || (shown[i] == rows[i] && rows[i].price == PriceTracker.WholeUnitCents(catalog[id].price))
  {
    ParseIntToString(id);
    SocketManager.SubscribeKnownStock(srv, catalog, conn, IntToString(id), id);
  }

  /**
   * With the client's comparison corrected, the subscribe snapshot shows the
   * stock's catalog price in every row of that stock.
   */
  lemma SubscribeSnapshotReachesCorrectedRows(rows: seq<PriceTracker.Row>, subscribed: set<int>, srv: SocketManager.Server, catalog: map<int, Stock>, conn: SocketManager.ConnId, id: int)
    requires conn in srv.subscriptions && id !in subscribed
    requires PriceMonitor.WellKeyed(catalog)
    requires IsInt32(id) && id in catalog
    ensures var t := PriceTracker.Toggle(subscribed, id);
      var r := SocketManager.Step(srv, catalog, conn, SocketManager.TextFrame(t.message));
      && |r.replies| == 1
      && var shown := PriceTracker.OnMessageCorrected(rows, r.replies[0]);
      forall i :: 0 <= i < |rows| && rows[i].id == id ==> shown[i].price == catalog[id].price
  {
    ParseIntToString(id);
    SocketManager.SubscribeKnownStock(srv, catalog, conn, IntToString(id), id);
  }

  /**
   * A price update the server broadcasts leaves the rows of other stocks
   * alone on a client that receives it; a row of that stock ends at the new
   * price, or keeps its previous state when that state's price is the new
   * price truncated to whole units.
   */
  lemma BroadcastUpdateReachesRows(rows: seq<PriceTracker.Row>, updated: Stock)
    ensures var shown := PriceTracker.OnMessage(rows, Json(PriceUpdate(updated)));
      forall i :: 0 <= i < |rows| ==>
        if rows[i].id == updated.id then
          || shown[i].price == updated.price
          || (shown[i] == rows[i] && rows[i].price == PriceTracker.WholeUnitCents(updated.price))
        else shown[i] == rows[i]
  {
  }

  /**
   * With the client's comparison corrected, a broadcast price update sets
   * every row of that stock to the new price.
   */
  lemma BroadcastUpdateReachesCorrectedRows(rows: seq<PriceTracker.Row>, updated: Stock)
    ensures var shown := PriceTracker.OnMessageCorrected(rows, Json(PriceUpdate(updated)));
      forall i :: 0 <= i < |rows| && rows[i].id == updated.id ==> shown[i].price == updated.price
  {
  }
}

=== FILE: monitor.dfy ===
/**
 * The price monitor: a fixed seed catalog, lookup by id, a tick that moves
 * every price by a random number of cents and raises one event per stock,
 * and the start/stop/dispose flags that govern the timer.
 */
module PriceMonitor {
  import opened Wrappers
  import opened Stocks
  import opened Seqs

  /** `Random.Next(-10, 11)`: the upper bound is exclusive, so the draw is in [-10, 10]. */
  type Delta = k: int | -10 <= k <= 10

  /** The `ArgumentException` raised by `GetStock` for an absent id. */
  datatype MonitorError = StockNotFound(id: int)

  /**
   * The monitor's state. `timerArmed` says whether a periodic timer exists;
   * `updating` and `disposed` are the source's two flags.
   */
  datatype Monitor = Monitor(stocks: map<int, Stock>, updating: bool, timerArmed: bool, disposed: bool)

  /** Every entry is stored under its own id. */
  predicate WellKeyed(stocks: map<int, Stock>)
  {
    forall k :: k in stocks ==> stocks[k].id == k
  }

  /**
   * The constructor's seed catalog. Each entry stamps its own reading of the
   * clock; `clock(i)` is the i-th reading.
   */
  function Create(clock: nat -> Instant): (m: Monitor)
    ensures forall k :: k in m.stocks <==> 1 <= k <= 10
    ensures WellKeyed(m.stocks)
    ensures forall k :: k in m.stocks ==> m.stocks[k].name.Some? && m.stocks[k].price > 0
    ensures forall k :: k in m.stocks ==> m.stocks[k].updatedAt == clock(k - 1)
    ensures !m.updating && !m.timerArmed && !m.disposed
  {
    var stocks := map[
      1 := Stock(1, Some("Tesla"), 12200, clock(0)),
      2 := Stock(2, Some("Amazon"), 15000, clock(1)),
      3 := Stock(3, Some("Palantir"), 9000, clock(2)),
      4 := Stock(4, Some("Rocket Lab"), 2000, clock(3)),
      5 := Stock(5, Some("Meta"), 20000, clock(4)),
      6 := Stock(6, Some("Google"), 22000, clock(5)),
      7 := Stock(7, Some("Soundhound"), 1000, clock(6)),
      8 := Stock(8, Some("Archer Aviation"), 800, clock(7)),
      9 := Stock(9, Some("Robinhood"), 9000, clock(8)),
      10 := Stock(10, Some("Sofi"), 2000, clock(9))
    ];
    assert forall k :: 1 <= k <= 10 ==> k in stocks by {
      forall k | 1 <= k <= 10 ensures k in stocks {
        assert k == 1 || k == 2 || k == 3 || k == 4 || k == 5 || k == 6 || k == 7 || k == 8 || k == 9 || k == 10;
      }
    }
    Monitor(stocks, false, false, false)
  }

  /** `GetStock`: the stored stock, or `StockNotFound` for an absent id. */
  function GetStock(stocks: map<int, Stock>, id: int): (r: Result<Stock, MonitorError>)
    ensures r.Success? <==> id in stocks
    ensures r.Success? ==> r.value == stocks[id]
    ensures r.Failure? ==> r.error == StockNotFound(id)
  {
    if id in stocks then Success(stocks[id]) else Failure(StockNotFound(id))
  }

  /** One stock after a tick has moved it by `delta` cents and stamped it at `now`. */
  function Moved(s: Stock, delta: Delta, now: Instant): Stock
  {
    s.(price := s.price + delta, updatedAt := now)
  }

  datatype Walked = Walked(stocks: map<int, Stock>, events: seq<Stock>)

  /**
   * The body of the tick's loop over the enumerated `keys`, starting at the
   * `drawn`-th random draw and clock reading.
   */
  function Walk(stocks: map<int, Stock>, keys: seq<int>, draw: nat -> Delta, clock: nat -> Instant, drawn: nat): (r: Walked)
    requires Distinct(keys)
    requires forall i :: 0 <= i < |keys| ==> keys[i] in stocks
    ensures r.stocks.Keys == stocks.Keys
    ensures forall k :: k in stocks && k !in keys ==> r.stocks[k] == stocks[k]
    ensures forall i :: 0 <= i < |keys| ==> r.stocks[keys[i]] == Moved(stocks[keys[i]], draw(drawn + i), clock(drawn + i))
    ensures |r.events| == |keys|
    ensures forall i :: 0 <= i < |keys| ==> r.events[i] == r.stocks[keys[i]]
    decreases |keys|
  {
    if |keys| == 0 then
      Walked(stocks, [])
    else
      var k := keys[0];
      var updated := Moved(stocks[k], draw(drawn), clock(drawn));
      var rest := Walk(stocks[k := updated], keys[1..], draw, clock, drawn + 1);
      Walked(rest.stocks, [updated] + rest.events)
  }

  datatype TickResult = TickResult(monitor: Monitor, events: seq<Stock>)

  /**
   * `UpdatePrices`: nothing once disposed; otherwise each stock, in the
   * dictionary's enumeration order `keys`, moves by its draw, is stamped with
   * its clock reading and is raised as a `StockUpdated` event.
   */
  function Tick(m: Monitor, keys: seq<int>, draw: nat -> Delta, clock: nat -> Instant): (r: TickResult)
    requires IsEnumeration(keys, m.stocks.Keys)
    ensures m.disposed ==> r == TickResult(m, [])
    ensures r.monitor.stocks.Keys == m.stocks.Keys
    ensures r.monitor.updating == m.updating && r.monitor.timerArmed == m.timerArmed && r.monitor.disposed == m.disposed
    ensures !m.disposed ==> |r.events| == |keys| == |m.stocks|
    ensures !m.disposed ==> forall i :: 0 <= i < |keys| ==>
      && r.monitor.stocks[keys[i]].price == m.stocks[keys[i]].price + draw(i)
      && r.monitor.stocks[keys[i]].updatedAt == clock(i)
      && r.events[i] == r.monitor.stocks[keys[i]]
  {
    if m.disposed then
      TickResult(m, [])
    else
      var w := Walk(m.stocks, keys, draw, clock, 0);
      EnumerationLength(keys, m.stocks.Keys);
      TickResult(m.(stocks := w.stocks), w.events)
  }

  lemma {:induction false} EnumerationLength(xs: seq<int>, s: set<int>)
    requires IsEnumeration(xs, s)
    ensures |xs| == |s|
    decreases |xs|
  {
    if |xs| > 0 {
      var rest := xs[1..];
      assert IsEnumeration(rest, s - {xs[0]}) by {
        forall x | x in s - {xs[0]} ensures x in rest {
          var i :| 0 <= i < |xs| && xs[i] == x;
          assert i != 0;
          assert rest[i - 1] == x;
        }
      }
      EnumerationLength(rest, s - {xs[0]});
    }
  }

  /** `StartUpdatingPrices`: arms the timer unless already updating. */
  function Start(m: Monitor): (r: Monitor)
    ensures r.updating && r.stocks == m.stocks && r.disposed == m.disposed
    ensures m.updating ==> r == m
    ensures !m.updating ==> r.timerArmed
  {
    if !m.updating then m.(timerArmed := true, updating := true) else m
  }

  /** `StopUpdatingPrices`: disarms the timer only when updating with a timer. */
  function Stop(m: Monitor): (r: Monitor)
    ensures r.stocks == m.stocks && r.disposed == m.disposed
    ensures !m.updating ==> r == m
    ensures FlagsConsistent(m) && !m.disposed && m.updating ==> !r.updating && !r.timerArmed
  {
    if m.updating && m.timerArmed then m.(timerArmed := false, updating := false) else m
  }

  /** `Dispose`: disarms the timer and sets the disposed flag, once; `updating` is left as it was. */
  function Dispose(m: Monitor): (r: Monitor)
    ensures r.disposed
    ensures !m.disposed ==> !r.timerArmed
    ensures r.stocks == m.stocks && r.updating == m.updating
    ensures m.disposed ==> r == m
  {
    if !m.disposed then m.(timerArmed := false, disposed := true) else m
  }

  /** A timer exists only while updating; before disposal, the converse holds as well. */
  predicate FlagsConsistent(m: Monitor)
  {
    && (m.timerArmed ==> m.updating)
    && (!m.disposed ==> (m.updating <==> m.timerArmed))
  }

  lemma FlagsConsistentPreserved(m: Monitor)
    requires FlagsConsistent(m)
    ensures FlagsConsistent(Start(m)) && FlagsConsistent(Stop(m)) && FlagsConsistent(Dispose(m))
  {
  }

  /** Start, then Stop, from a monitor that is not updating leaves it not updating and without a timer. */
  lemma StartThenStop(m: Monitor)
    requires !m.updating
    ensures var r := Stop(Start(m)); !r.updating && !r.timerArmed && r.stocks == m.stocks && r.disposed == m.disposed
  {
  }

  lemma StartIdempotent(m: Monitor)
    ensures Start(Start(m)) == Start(m)
  {
  }

  lemma DisposeIdempotent(m: Monitor)
    ensures Dispose(Dispose(m)) == Dispose(m)
  {
  }

  /**
   * Disposing a live monitor that was updating leaves `updating` set and no timer,
   * so neither Start nor Stop changes it afterwards, and its ticks do nothing.
   */
  lemma DisposedWhileUpdatingIsInert(m: Monitor, keys: seq<int>, draw: nat -> Delta, clock: nat -> Instant)
    requires m.updating && !m.disposed
    requires IsEnumeration(keys, m.stocks.Keys)
    ensures var d := Dispose(m);
      Start(d) == d && Stop(d) == d && Tick(d, keys, draw, clock) == TickResult(d, [])
  {
  }

  /**
   * A tick moves every price by at most ten cents either way, never clamps it,
   * and leaves every id and name as it was.
   */
  lemma TickMovesPricesByAtMostTenCents(m: Monitor, keys: seq<int>, draw: nat -> Delta, clock: nat -> Instant)
    requires IsEnumeration(keys, m.stocks.Keys)
    ensures var after := Tick(m, keys, draw, clock).monitor.stocks;
      forall k :: k in m.stocks ==>
        && after[k].id == m.stocks[k].id
        && after[k].name == m.stocks[k].name
        && m.stocks[k].price - 10 <= after[k].price <= m.stocks[k].price + 10
  {
    if !m.disposed {
      var w := Walk(m.stocks, keys, draw, clock, 0);
      assert Tick(m, keys, draw, clock).monitor.stocks == w.stocks;
      forall k | k in m.stocks
        ensures w.stocks[k].id == m.stocks[k].id && w.stocks[k].name == m.stocks[k].name
        ensures m.stocks[k].price - 10 <= w.stocks[k].price <= m.stocks[k].price + 10
      {
        WalkMovesKey(m.stocks, keys, draw, clock, k);
      }
    }
  }

  /** One enumerated stock after the walk: moved by some draw, at some instant. */
  lemma WalkMovesKey(stocks: map<int, Stock>, keys: seq<int>, draw: nat -> Delta, clock: nat -> Instant, k: int)
    requires IsEnumeration(keys, stocks.Keys) && k in stocks
    ensures exists d: Delta, t: Instant :: Walk(stocks, keys, draw, clock, 0).stocks[k] == Moved(stocks[k], d, t)
  {
    var i := IndexOf(keys, k);
    assert Walk(stocks, keys, draw, clock, 0).stocks[keys[i]] == Moved(stocks[keys[i]], draw(i), clock(i));
  }

  /** A live tick raises one event per catalog entry, and no two events are about the same stock. */
  lemma TickEventsHaveDistinctIds(m: Monitor, keys: seq<int>, draw: nat -> Delta, clock: nat -> Instant)
    requires WellKeyed(m.stocks) && !m.disposed
    requires IsEnumeration(keys, m.stocks.Keys)
    ensures var r := Tick(m, keys, draw, clock);
      && |r.events| == |m.stocks|
      && (forall i, j :: 0 <= i < j < |r.events| ==> r.events[i].id != r.events[j].id)
  {
    var w := Walk(m.stocks, keys, draw, clock, 0);
    var r := Tick(m, keys, draw, clock);
    assert r.events == w.events;
    WalkEventsPerKey(m.stocks, keys, draw, clock);
  }

  /** Every catalog entry is raised by a live tick, carrying its state after the update. */
  lemma TickRaisesEveryStock(m: Monitor, keys: seq<int>, draw: nat -> Delta, clock: nat -> Instant)
    requires WellKeyed(m.stocks) && !m.disposed
    requires IsEnumeration(keys, m.stocks.Keys)
    ensures var r := Tick(m, keys, draw, clock);
      forall k :: k in m.stocks ==> exists i :: 0 <= i < |r.events| && r.events[i] == r.monitor.stocks[k] && r.events[i].id == k
  {
    var w := Walk(m.stocks, keys, draw, clock, 0);
    var r := Tick(m, keys, draw, clock);
    assert r.events == w.events && r.monitor.stocks == w.stocks;
    WalkEventsPerKey(m.stocks, keys, draw, clock);
  }

  lemma WalkEventsPerKey(stocks: map<int, Stock>, keys: seq<int>, draw: nat -> Delta, clock: nat -> Instant)
    requires WellKeyed(stocks) && IsEnumeration(keys, stocks.Keys)
    ensures var w := Walk(stocks, keys, draw, clock, 0);
      && (forall i, j :: 0 <= i < j < |w.events| ==> w.events[i].id != w.events[j].id)
      && (forall k :: k in stocks ==> exists i :: 0 <= i < |w.events| && w.events[i] == w.stocks[k] && w.events[i].id == k)
  {
    var w := Walk(stocks, keys, draw, clock, 0);
    EventIdsAreKeys(stocks, keys, draw, clock);
    forall k | k in stocks
      ensures exists i :: 0 <= i < |w.events| && w.events[i] == w.stocks[k] && w.events[i].id == k
    {
      var i := IndexOf(keys, k);
      assert w.events[i] == w.stocks[keys[i]];
    }
  }

  /** The i-th event of a walk is about the i-th enumerated key. */
  lemma EventIdsAreKeys(stocks: map<int, Stock>, keys: seq<int>, draw: nat -> Delta, clock: nat -> Instant)
    requires WellKeyed(stocks) && IsEnumeration(keys, stocks.Keys)
    ensures var w := Walk(stocks, keys, draw, clock, 0);
      forall i :: 0 <= i < |keys| ==> w.events[i].id == keys[i]
  {
    var w := Walk(stocks, keys, draw, clock, 0);
    forall i | 0 <= i < |keys| ensures w.events[i].id == keys[i] {
      assert w.events[i] == Moved(stocks[keys[i]], draw(i), clock(i));
    }
  }

  /** A tick keeps every stock under its own id, so lookups keep returning the requested id. */
  lemma TickKeepsWellKeyed(m: Monitor, keys: seq<int>, draw: nat -> Delta, clock: nat -> Instant)
    requires WellKeyed(m.stocks)
    requires IsEnumeration(keys, m.stocks.Keys)
    ensures WellKeyed(Tick(m, keys, draw, clock).monitor.stocks)
  {
    TickMovesPricesByAtMostTenCents(m, keys, draw, clock);
  }

  /** For a well-keyed catalog, a successful lookup returns the stock with the requested id. */
  lemma GetStockMatchesId(stocks: map<int, Stock>, id: int)
    requires WellKeyed(stocks)
    ensures GetStock(stocks, id).Success? ==> GetStock(stocks, id).value.id == id
  {
  }

  /** The seed catalog's first entry, and lookups outside 1..10 fail. */
  lemma SeedCatalog(clock: nat -> Instant, id: int)
    ensures GetStock(Create(clock).stocks, 1) == Success(Stock(1, Some("Tesla"), 12200, clock(0)))
    ensures (id < 1 || id > 10) ==> GetStock(Create(clock).stocks, id) == Failure(StockNotFound(id))
  {
  }
}

=== FILE: seqs.dfy ===
/** Facts about sequences that enumerate a set, shared by the monitor and the socket manager. */
module Seqs {
  /** No element occurs twice. */
  predicate Distinct<T(==)>(xs: seq<T>)
  {
    forall i, j :: 0 <= i < j < |xs| ==> xs[i] != xs[j]
  }

  /** `xs` lists every element of `s` exactly once, as enumerating a dictionary's keys does. */
  predicate IsEnumeration<T(==)>(xs: seq<T>, s: set<T>)
  {
    && Distinct(xs)
    && (forall i :: 0 <= i < |xs| ==> xs[i] in s)
    && (forall x :: x in s ==> x in xs)
  }

  /** The position of a listed element. */
  function IndexOf<T(==)>(xs: seq<T>, x: T): (i: nat)
    requires x in xs
    ensures i < |xs| && xs[i] == x
  {
    if xs[0] == x then 0 else 1 + IndexOf(xs[1..], x)
  }
}

=== FILE: sockets.dfy ===
/**
 * The server side of the socket protocol: the connection and subscription
 * registries, the per-message command interpreter of the receive loop, the
 * session that wraps it, and the broadcast filter fed by the price monitor.
 */
module SocketManager {
  import opened Wrappers
  import opened Text
  import opened Stocks
  import opened Seqs
  import PriceMonitor

  /** A connection id: the string form of the GUID drawn when a socket is accepted. */
  type ConnId = string

  /**
   * The two registries. `connections` stands for the dictionary of live
   * sockets (the handles themselves are opaque); each connection's
   * subscriptions are a bag, so the same stock id may occur more than once.
   */
  datatype Server = Server(connections: set<ConnId>, subscriptions: map<ConnId, multiset<int>>)

  const SubscribePrefix: string := "subscribe:"
  const UnsubscribePrefix: string := "unsubscribe:"
  const BadSubscribeReply: string := "Format of the stock ID is invalid."
  const BadUnsubscribeReply: string := "Invalid stock ID format."
  const UnknownPrefix: string := "Message unknown: "

  /** What the receive loop makes of one text message. */
  datatype Command =
    | Subscribe(id: int)
    | MalformedSubscribe(token: string)
    | Unsubscribe(id: int)
    | MalformedUnsubscribe(token: string)
    | Unknown(message: string)

  /**
   * The prefix tests and `int.TryParse` of the receive loop, in their order:
   * `subscribe:` is checked first, then `unsubscribe:`.
   */
  function Classify(message: string): (c: Command)
    ensures c.Subscribe? ==> IsInt32(c.id)
    ensures c.Unsubscribe? ==> IsInt32(c.id)
    ensures c.Unknown? ==> c.message == message
  {
    if StartsWith(message, SubscribePrefix) then
      var token := message[|SubscribePrefix|..];
      var parsed := TryParseInt32(token);
      if parsed.Some? then Subscribe(parsed.value) else MalformedSubscribe(token)
    else if StartsWith(message, UnsubscribePrefix) then
      var token := message[|UnsubscribePrefix|..];
      var parsed := TryParseInt32(token);
      if parsed.Some? then Unsubscribe(parsed.value) else MalformedUnsubscribe(token)
    else
      Unknown(message)
  }

  /** A frame as `ReceiveAsync` reports it. */
  datatype Frame = TextFrame(text: string) | BinaryFrame | CloseFrame

  /**
   * How the receive loop goes on after a frame: it keeps reading, the client's
   * close frame ends it, or an exception escapes it.
   */
  datatype Outcome = Continue | ClientClosed | Faulted(error: PriceMonitor.MonitorError)

  datatype StepResult = StepResult(server: Server, replies: seq<WireMessage>, outcome: Outcome)

  /** `HandleWebSocketAsync`'s registration: `TryAdd` of the socket and of an empty bag. */
  function Accept(srv: Server, conn: ConnId): (r: Server)
    ensures conn in r.connections && conn in r.subscriptions
    ensures conn !in srv.subscriptions ==> r.subscriptions[conn] == multiset{}
    ensures conn in srv.subscriptions ==> r.subscriptions == srv.subscriptions
    ensures r.connections - {conn} == srv.connections - {conn}
    ensures r.subscriptions - {conn} == srv.subscriptions - {conn}
  {
    Server(
      srv.connections + {conn},
      if conn in srv.subscriptions then srv.subscriptions else srv.subscriptions[conn := multiset{}])
  }

  /** The `finally` block: both registry entries of the connection are removed. */
  function Teardown(srv: Server, conn: ConnId): (r: Server)
    ensures conn !in r.connections && conn !in r.subscriptions
    ensures r.connections == srv.connections - {conn}
    ensures forall c :: c != conn ==> (c in r.subscriptions <==> c in srv.subscriptions)
    ensures forall c :: c in r.subscriptions ==> r.subscriptions[c] == srv.subscriptions[c]
  {
    Server(srv.connections - {conn}, srv.subscriptions - {conn})
  }

  /** One pass of the receive loop, for a text message. */
  function Handle(srv: Server, catalog: map<int, Stock>, conn: ConnId, message: string): (r: StepResult)
    ensures r.server.connections == srv.connections
    ensures r.server.subscriptions.Keys == srv.subscriptions.Keys
    ensures forall c :: c in srv.subscriptions && c != conn ==> r.server.subscriptions[c] == srv.subscriptions[c]
    ensures |r.replies| <= 1
  {
    match Classify(message)
    case Subscribe(id) =>
      if conn !in srv.subscriptions then
        StepResult(srv, [], Continue)
      else
        var added := srv.(subscriptions := srv.subscriptions[conn := srv.subscriptions[conn] + multiset{id}]);
        var found := PriceMonitor.GetStock(catalog, id);
        if found.Success? then StepResult(added, [Json(found.value)], Continue)
        else StepResult(added, [], Faulted(found.error))
    case MalformedSubscribe(_) =>
      StepResult(srv, [PlainText(BadSubscribeReply)], Continue)
    case Unsubscribe(id) =>
      if conn in srv.subscriptions && id in srv.subscriptions[conn] then
        StepResult(srv.(subscriptions := srv.subscriptions[conn := srv.subscriptions[conn][id := 0]]), [], Continue)
      else
        StepResult(srv, [], Continue)
    case MalformedUnsubscribe(_) =>
      StepResult(srv, [PlainText(BadUnsubscribeReply)], Continue)
    case Unknown(m) =>
      StepResult(srv, [PlainText(UnknownPrefix + m)], Continue)
  }

  /**
   * One pass of the receive loop: text frames are interpreted, binary frames
   * ignored, and a close frame ends the loop. Only the connection's own bag
   * can change, and at most one reply is sent.
   */
  function Step(srv: Server, catalog: map<int, Stock>, conn: ConnId, frame: Frame): (r: StepResult)
    ensures r.server.connections == srv.connections
    ensures r.server.subscriptions.Keys == srv.subscriptions.Keys
    ensures forall c :: c in srv.subscriptions && c != conn ==> r.server.subscriptions[c] == srv.subscriptions[c]
    ensures |r.replies| <= 1
    ensures !frame.TextFrame? ==> r.server == srv && r.replies == []
  {
    match frame
    case TextFrame(message) => Handle(srv, catalog, conn, message)
    case BinaryFrame => StepResult(srv, [], Continue)
    case CloseFrame => StepResult(srv, [], ClientClosed)
  }

  datatype SessionResult = SessionResult(server: Server, replies: seq<WireMessage>)

  /**
   * The receive loop over the frames the client sends before the transport
   * goes away: it stops at the first frame that ends it.
   */
  function Serve(srv: Server, catalog: map<int, Stock>, conn: ConnId, frames: seq<Frame>): (r: SessionResult)
    ensures r.server.connections == srv.connections
    ensures r.server.subscriptions.Keys == srv.subscriptions.Keys
    ensures forall c :: c in srv.subscriptions && c != conn ==> r.server.subscriptions[c] == srv.subscriptions[c]
    ensures |r.replies| <= |frames|
    decreases |frames|
  {
    if |frames| == 0 then
      SessionResult(srv, [])
    else
      var step := Step(srv, catalog, conn, frames[0]);
      if step.outcome.Continue? then
        var rest := Serve(step.server, catalog, conn, frames[1..]);
        SessionResult(rest.server, step.replies + rest.replies)
      else
        SessionResult(step.server, step.replies)
  }

  /**
   * `HandleWebSocketAsync`: register, run the receive loop, and in every case
   * remove the connection from both registries again. Whatever the client
   * sends, the registries end as they were, less this connection.
   */
  function Session(srv: Server, catalog: map<int, Stock>, conn: ConnId, frames: seq<Frame>): (r: SessionResult)
    ensures r.server.connections == srv.connections - {conn}
    ensures r.server.subscriptions == srv.subscriptions - {conn}
  {
    var served := Serve(Accept(srv, conn), catalog, conn, frames);
    SessionResult(Teardown(served.server, conn), served.replies)
  }

  /** Whether `OnStockUpdated` sends the update for `stockId` to `conn`. */
  predicate Eligible(srv: Server, conn: ConnId, stockId: int, open: set<ConnId>)
  {
    conn in srv.connections && conn in srv.subscriptions && stockId in srv.subscriptions[conn] && conn in open
  }

  /** The connections a price update for `stockId` is meant for. */
  function Recipients(srv: Server, stockId: int, open: set<ConnId>): (r: set<ConnId>)
    ensures r <= srv.connections && r <= open
    ensures forall c :: c in r ==> c in srv.subscriptions && srv.subscriptions[c][stockId] > 0
    ensures forall c :: c in srv.connections && c in open && c in srv.subscriptions && stockId in srv.subscriptions[c] ==> c in r
  {
    set c | c in srv.connections && Eligible(srv, c, stockId, open)
  }

  /** One attempted send of the broadcast, and whether the transport took it. */
  datatype Send = Send(conn: ConnId, payload: Stock, delivered: bool)

  /**
   * `OnStockUpdated`: walk the connections in the dictionary's enumeration
   * order `order` and send the name-less update to each eligible one. Sends to
   * the connections in `failing` throw; the error is logged and the walk goes on.
   */
  method Broadcast(srv: Server, updated: Stock, order: seq<ConnId>, open: set<ConnId>, failing: set<ConnId>)
    returns (sends: seq<Send>)
    requires IsEnumeration(order, srv.connections)
    ensures forall i :: 0 <= i < |sends| ==> sends[i].payload == PriceUpdate(updated)
    ensures forall i :: 0 <= i < |sends| ==> (sends[i].delivered <==> sends[i].conn !in failing)
    ensures forall i, j :: 0 <= i < j < |sends| ==> sends[i].conn != sends[j].conn
    ensures forall i :: 0 <= i < |sends| ==> sends[i].conn in Recipients(srv, updated.id, open)
    ensures forall c :: c in Recipients(srv, updated.id, open) ==> Sent(sends, c)
  {
    var payload := PriceUpdate(updated);
    sends := [];
    var k := 0;
    while k < |order|
      invariant 0 <= k <= |order|
      invariant forall i :: 0 <= i < |sends| ==> sends[i].payload == payload
      invariant forall i :: 0 <= i < |sends| ==> (sends[i].delivered <==> sends[i].conn !in failing)
      invariant forall i, j :: 0 <= i < j < |sends| ==> sends[i].conn != sends[j].conn
      invariant forall i :: 0 <= i < |sends| ==> sends[i].conn in order[..k] && Eligible(srv, sends[i].conn, updated.id, open)
      invariant forall j :: 0 <= j < k && Eligible(srv, order[j], updated.id, open) ==> Sent(sends, order[j])
    {
      var conn := order[k];
      if conn in srv.subscriptions && updated.id in srv.subscriptions[conn] && conn in open {
        var send := Send(conn, payload, conn !in failing);
        SentAfterAppend(sends, send);
        sends := sends + [send];
      }
      assert order[..k + 1] == order[..k] + [conn];
      k := k + 1;
    }
    forall c | c in Recipients(srv, updated.id, open)
      ensures Sent(sends, c)
    {
      var j := IndexOf(order, c);
      assert Eligible(srv, order[j], updated.id, open);
    }
  }

  /** Some send of the broadcast went to `conn`. */
  predicate Sent(sends: seq<Send>, conn: ConnId)
  {
    exists i :: 0 <= i < |sends| && sends[i].conn == conn
  }

  lemma SentAfterAppend(sends: seq<Send>, send: Send)
    ensures forall c :: Sent(sends + [send], c) <==> Sent(sends, c) || c == send.conn
  {
    var longer := sends + [send];
    forall c ensures Sent(longer, c) <==> Sent(sends, c) || c == send.conn {
      if Sent(sends, c) {
        var i :| 0 <= i < |sends| && sends[i].conn == c;
        assert longer[i].conn == c;
      }
      if c == send.conn {
        assert longer[|sends|].conn == c;
      }
      if Sent(longer, c) && c != send.conn {
        var i :| 0 <= i < |longer| && longer[i].conn == c;
        assert sends[i].conn == c;
      }
    }
  }

  /** A connection accepted under a fresh id and torn down again leaves the registries as they were. */
  lemma AcceptThenTeardown(srv: Server, conn: ConnId)
    requires conn !in srv.connections && conn !in srv.subscriptions
    ensures Accept(srv, conn).subscriptions[conn] == multiset{}
    ensures Teardown(Accept(srv, conn), conn) == srv
  {
  }

  /** A message with the `subscribe:` prefix is classified by what its token parses to. */
  lemma ClassifySubscribe(token: string)
    ensures Classify(SubscribePrefix + token) ==
      (if TryParseInt32(token).Some? then Subscribe(TryParseInt32(token).value) else MalformedSubscribe(token))
  {
    var message := SubscribePrefix + token;
    assert message[..|SubscribePrefix|] == SubscribePrefix;
    assert message[|SubscribePrefix|..] == token;
  }

  /** A message with the `unsubscribe:` prefix is classified by what its token parses to. */
  lemma ClassifyUnsubscribe(token: string)
    ensures Classify(UnsubscribePrefix + token) ==
      (if TryParseInt32(token).Some? then Unsubscribe(TryParseInt32(token).value) else MalformedUnsubscribe(token))
  {
    var message := UnsubscribePrefix + token;
    assert message[0] == 'u';
    assert !StartsWith(message, SubscribePrefix);
    assert message[..|UnsubscribePrefix|] == UnsubscribePrefix;
    assert message[|UnsubscribePrefix|..] == token;
  }

  /**
   * `subscribe:<id>` for a catalog id adds the id to the connection's bag and
   * replies with the stock's full snapshot, name included.
   */
  lemma SubscribeKnownStock(srv: Server, catalog: map<int, Stock>, conn: ConnId, token: string, id: int)
    requires conn in srv.subscriptions
    requires PriceMonitor.WellKeyed(catalog)
    requires TryParseInt32(token) == Some(id) && id in catalog
    ensures var r := Step(srv, catalog, conn, TextFrame(SubscribePrefix + token));
      && r.outcome == Continue
      && r.server.subscriptions[conn] == srv.subscriptions[conn] + multiset{id}
      && r.replies == [Json(catalog[id])]
      && r.replies[0].stock.id == id && r.replies[0].stock.name == catalog[id].name
  {
    ClassifySubscribe(token);
  }

  /** `subscribe:<id>` for a catalog id keeps the session going and adds exactly one copy of the id. */
  lemma SubscribeAddsOneCopy(srv: Server, catalog: map<int, Stock>, conn: ConnId, token: string, id: int)
    requires conn in srv.subscriptions
    requires TryParseInt32(token) == Some(id) && id in catalog
    ensures var r := Step(srv, catalog, conn, TextFrame(SubscribePrefix + token));
      r.outcome == Continue && r.server.subscriptions[conn] == srv.subscriptions[conn] + multiset{id}
  {
    ClassifySubscribe(token);
  }

  /**
   * `subscribe:<id>` for an id outside the catalog records the id, then the
   * failed lookup ends the receive loop without a reply; frames after it are
   * never read.
   */
  lemma SubscribeUnknownStock(srv: Server, catalog: map<int, Stock>, conn: ConnId, token: string, id: int, later: seq<Frame>)
    requires conn in srv.subscriptions
    requires TryParseInt32(token) == Some(id) && id !in catalog
    ensures var r := Step(srv, catalog, conn, TextFrame(SubscribePrefix + token));
      && r.outcome == Faulted(PriceMonitor.StockNotFound(id))
      && r.replies == []
      && r.server.subscriptions[conn] == srv.subscriptions[conn] + multiset{id}
      && Serve(srv, catalog, conn, [TextFrame(SubscribePrefix + token)] + later) == SessionResult(r.server, [])
  {
    ClassifySubscribe(token);
    var frames := [TextFrame(SubscribePrefix + token)] + later;
    assert frames[0] == TextFrame(SubscribePrefix + token);
  }

  /** A session whose first message subscribes to an unknown id ends with the connection gone from both registries. */
  lemma UnknownStockEndsSession(srv: Server, catalog: map<int, Stock>, conn: ConnId, id: int, later: seq<Frame>)
    requires conn !in srv.subscriptions
    requires IsInt32(id) && id !in catalog
    ensures var r := Session(srv, catalog, conn, [TextFrame(SubscribePrefix + IntToString(id))] + later);
      && r.replies == []
      && conn !in r.server.connections && conn !in r.server.subscriptions
  {
    ParseIntToString(id);
    SubscribeUnknownStock(Accept(srv, conn), catalog, conn, IntToString(id), id, later);
  }

  /** A `subscribe:` token that does not parse changes nothing and gets the format complaint. */
  lemma SubscribeMalformed(srv: Server, catalog: map<int, Stock>, conn: ConnId, token: string)
    requires TryParseInt32(token).None?
    ensures Step(srv, catalog, conn, TextFrame(SubscribePrefix + token))
      == StepResult(srv, [PlainText("Format of the stock ID is invalid.")], Continue)
  {
    ClassifySubscribe(token);
  }

  /**
   * `unsubscribe:<id>` removes every copy of the id from the connection's bag
   * and keeps every other id with its multiplicity; it never replies.
   */
  lemma UnsubscribeRemovesAllCopies(srv: Server, catalog: map<int, Stock>, conn: ConnId, token: string, id: int)
    requires conn in srv.subscriptions
    requires TryParseInt32(token) == Some(id)
    ensures var r := Step(srv, catalog, conn, TextFrame(UnsubscribePrefix + token));
      && r.outcome == Continue && r.replies == []
      && id !in r.server.subscriptions[conn]
      && (forall x :: x != id ==> r.server.subscriptions[conn][x] == srv.subscriptions[conn][x])
      && (id !in srv.subscriptions[conn] ==> r.server == srv)
  {
    var message := UnsubscribePrefix + token;
    ClassifyUnsubscribe(token);
    var bag := srv.subscriptions[conn];
    var r := Step(srv, catalog, conn, TextFrame(message));
    assert r == Handle(srv, catalog, conn, message);
    if id in bag {
      assert r == StepResult(srv.(subscriptions := srv.subscriptions[conn := bag[id := 0]]), [], Continue);
    } else {
      assert r == StepResult(srv, [], Continue);
    }
  }

  /** An `unsubscribe:` token that does not parse changes nothing and gets the format complaint. */
  lemma UnsubscribeMalformed(srv: Server, catalog: map<int, Stock>, conn: ConnId, token: string)
    requires TryParseInt32(token).None?
    ensures Step(srv, catalog, conn, TextFrame(UnsubscribePrefix + token))
      == StepResult(srv, [PlainText("Invalid stock ID format.")], Continue)
  {
    ClassifyUnsubscribe(token);
  }

  /** Any other message changes nothing and is echoed back as unknown. */
  lemma UnknownMessage(srv: Server, catalog: map<int, Stock>, conn: ConnId, message: string)
    requires !StartsWith(message, SubscribePrefix) && !StartsWith(message, UnsubscribePrefix)
    ensures Step(srv, catalog, conn, TextFrame(message))
      == StepResult(srv, [PlainText("Message unknown: " + message)], Continue)
  {
  }

  /**
   * Subscribing twice answers every `Contains` question as subscribing once
   * does, though the bag holds two copies; one unsubscribe removes both.
   */
  lemma SubscribeTwice(srv: Server, catalog: map<int, Stock>, conn: ConnId, id: int)
    requires conn in srv.subscriptions
    requires IsInt32(id) && id in catalog
    ensures var once := Step(srv, catalog, conn, TextFrame(SubscribePrefix + IntToString(id))).server;
      var twice := Step(once, catalog, conn, TextFrame(SubscribePrefix + IntToString(id))).server;
      && (forall x :: x in twice.subscriptions[conn] <==> x in once.subscriptions[conn])
      && twice.subscriptions[conn][id] == srv.subscriptions[conn][id] + 2
      && id !in Step(twice, catalog, conn, TextFrame(UnsubscribePrefix + IntToString(id))).server.subscriptions[conn]
  {
    ParseIntToString(id);
    ClassifySubscribe(IntToString(id));
    ClassifyUnsubscribe(IntToString(id));
  }

  /** Right after subscribing, a registered connection receives the stock's updates exactly while it is open. */
  lemma SubscriberIsRecipient(srv: Server, catalog: map<int, Stock>, conn: ConnId, token: string, id: int, open: set<ConnId>)
    requires conn in srv.connections && conn in srv.subscriptions
    requires TryParseInt32(token) == Some(id)
    ensures var after := Step(srv, catalog, conn, TextFrame(SubscribePrefix + token)).server;
      conn in Recipients(after, id, open) <==> conn in open
  {
    ClassifySubscribe(token);
  }

  /** Right after unsubscribing, a connection receives no more updates for the stock. */
  lemma UnsubscriberIsNotRecipient(srv: Server, catalog: map<int, Stock>, conn: ConnId, token: string, id: int, open: set<ConnId>)
    requires TryParseInt32(token) == Some(id)
    requires conn in srv.subscriptions
    ensures conn !in Recipients(Step(srv, catalog, conn, TextFrame(UnsubscribePrefix + token)).server, id, open)
  {
    UnsubscribeRemovesAllCopies(srv, catalog, conn, token, id);
  }

  /**
   * A connection that has ended its session receives nothing, and the
   * session changes no other connection's deliveries.
   */
  lemma EndedSessionIsNotRecipient(srv: Server, catalog: map<int, Stock>, conn: ConnId, frames: seq<Frame>, stockId: int, open: set<ConnId>)
    ensures var after := Session(srv, catalog, conn, frames).server;
      && conn !in Recipients(after, stockId, open)
      && Recipients(after, stockId, open) == Recipients(srv, stockId, open) - {conn}
  {
  }
}

=== FILE: stocks.dfy ===
/**
 * The record shared by the price monitor, the socket manager and the browser
 * client: one instrument of the catalog, with its price held in integer cents.
 */
module Stocks {
  import opened Wrappers

  /** A UTC instant, as the tick count of a `DateTime`; the clock is an input. */
  type Instant = nat

  /**
   * A stock. `name` is optional because the price-only update the server
   * broadcasts leaves it unset; `price` is in cents, so that the decimal
   * arithmetic of the server is exact here too.
   */
  datatype Stock = Stock(id: int, name: Option<string>, price: int, updatedAt: Instant)

  /** The payload broadcast on every price change: the same stock without its name. */
  function PriceUpdate(s: Stock): (u: Stock)
    ensures u.id == s.id && u.price == s.price && u.updatedAt == s.updatedAt
    ensures u.name.None?
  {
    Stock(s.id, None, s.price, s.updatedAt)
  }

  /** A text frame from server to client: a JSON-serialised stock, or a plain-text notice. */
  datatype WireMessage = Json(stock: Stock) | PlainText(text: string)
}

=== FILE: text.dfy ===
/**
 * The two text conversions the protocol rests on: .NET's `int.TryParse(string)`
 * (default `NumberStyles.Integer`, invariant signs), which the server applies
 * to the token after a command prefix, and the decimal rendering of an
 * integer that the client's `'subscribe:' + id` performs.
 */
module Text {
  import opened Wrappers

  const Int32Min: int := -0x8000_0000
  const Int32Max: int := 0x7FFF_FFFF

  predicate IsInt32(n: int)
  {
    Int32Min <= n <= Int32Max
  }

  /** Ordinal prefix test. */
  predicate StartsWith(s: string, prefix: string)
  {
    |prefix| <= |s| && s[..|prefix|] == prefix
  }

  /** The white space `NumberStyles.AllowLeadingWhite` and `AllowTrailingWhite` skip. */
  predicate IsWhite(c: char)
  {
    c == ' ' || '\t' <= c <= '\r'
  }

  predicate IsDigit(c: char)
  {
    '0' <= c <= '9'
  }

  predicate AllDigits(s: string)
  {
    forall i :: 0 <= i < |s| ==> IsDigit(s[i])
  }

  /** Trailing NUL characters, which .NET's integer parser tolerates at the very end. */
  predicate AllNul(s: string)
  {
    forall i :: 0 <= i < |s| ==> s[i] == '\0'
  }

  /** Length of the longest prefix of `s` whose characters all satisfy `p`. */
  function Span(s: string, p: char -> bool): (n: nat)
    ensures n <= |s|
    ensures forall i :: 0 <= i < n ==> p(s[i])
    ensures n < |s| ==> !p(s[n])
  {
    if |s| == 0 || !p(s[0]) then 0 else 1 + Span(s[1..], p)
  }

  function DigitOf(c: char): nat
    requires IsDigit(c)
  {
    (c as int) - ('0' as int)
  }

  function DigitChar(d: nat): char
    requires d < 10
  {
    ('0' as int + d) as char
  }

  /** The value of a string of decimal digits, most significant first. */
  function DigitsValue(ds: string): nat
    requires AllDigits(ds)
  {
    if |ds| == 0 then 0 else 10 * DigitsValue(ds[..|ds| - 1]) + DigitOf(ds[|ds| - 1])
  }

  /**
   * `int.TryParse(s, out v)`: optional leading white space, an optional `+`
   * or `-`, at least one digit, optional trailing white space and trailing
   * NULs; the value must fit an `Int32`.
   */
  function TryParseInt32(s: string): (r: Option<int>)
    ensures r.Some? ==> IsInt32(r.value)
    ensures r.Some? ==> exists i :: 0 <= i < |s| && IsDigit(s[i])
  {
    var start := Span(s, IsWhite);
    var r := ParseAfterWhite(s[start..]);
    assert r.Some? ==> IsDigit(s[start..][ParseStart(s[start..])]);
    r
  }

  /** Where the digits of a token that has lost its leading white space begin. */
  function ParseStart(t: string): nat
  {
    if |t| > 0 && (t[0] == '-' || t[0] == '+') then 1 else 0
  }

  /** The part of `int.TryParse` after the leading white space has been skipped. */
  function ParseAfterWhite(t: string): (r: Option<int>)
    ensures r.Some? ==> IsInt32(r.value)
    ensures r.Some? ==> ParseStart(t) < |t| && IsDigit(t[ParseStart(t)])
  {
    var negative := |t| > 0 && t[0] == '-';
    var body := t[ParseStart(t)..];
    var digitCount := Span(body, IsDigit);
    var tail := body[digitCount..];
    if digitCount == 0 || !AllNul(tail[Span(tail, IsWhite)..]) then
      None
    else
      var magnitude: int := DigitsValue(body[..digitCount]);
      var value: int := if negative then -magnitude else magnitude;
      if IsInt32(value) then Some(value) else None
  }

  /** Decimal digits of a natural number, without leading zeros. */
  function NatToString(n: nat): (s: string)
    ensures 0 < |s| && AllDigits(s)
  {
    if n < 10 then [DigitChar(n)] else NatToString(n / 10) + [DigitChar(n % 10)]
  }

  /** JavaScript's rendering of an integral number when it is concatenated to a string. */
  function IntToString(n: int): (s: string)
    ensures 0 < |s|
    ensures n < 0 <==> s[0] == '-'
    ensures n >= 0 ==> AllDigits(s)
  {
    if n < 0 then "-" + NatToString(-n) else NatToString(n)
  }

  lemma SpanOfAll(s: string, p: char -> bool)
    requires forall i :: 0 <= i < |s| ==> p(s[i])
    ensures Span(s, p) == |s|
  {
    if |s| > 0 {
      SpanOfAll(s[1..], p);
    }
  }

  /** Reading back the digits of `n` gives `n`. */
  lemma {:induction false} DigitsValueOfNatToString(n: nat)
    ensures DigitsValue(NatToString(n)) == n
  {
    var s := NatToString(n);
    if n < 10 {
      assert s[..|s| - 1] == [];
    } else {
      assert s[..|s| - 1] == NatToString(n / 10);
      DigitsValueOfNatToString(n / 10);
    }
  }

  /** Every 32-bit integer the client renders is parsed back to itself by the server. */
  lemma {:induction false} ParseIntToString(n: int)
    requires IsInt32(n)
    ensures TryParseInt32(IntToString(n)) == Some(n)
  {
    var s := IntToString(n);
    assert Span(s, IsWhite) == 0;
    assert ParseStart(s) == (if n < 0 then 1 else 0);
    var digits := if n < 0 then NatToString(-n) else NatToString(n);
    assert s[Span(s, IsWhite)..] == s;
    var body := if n < 0 then s[1..] else s;
    assert body == digits;
    SpanOfAll(body, IsDigit);
    assert body[..|body|] == digits;
    DigitsValueOfNatToString(if n < 0 then -n else n);
  }

  /** Leading white space does not change what a token parses to. */
  lemma LeadingWhiteIgnored(c: char, s: string)
    requires IsWhite(c)
    ensures TryParseInt32([c] + s) == TryParseInt32(s)
  {
    var t := [c] + s;
    assert t[1..] == s;
    assert Span(t, IsWhite) == 1 + Span(s, IsWhite);
    assert t[Span(t, IsWhite)..] == s[Span(s, IsWhite)..];
  }

  /** The empty token, and a token with no digit at all, do not parse. */
  lemma NoDigitsNoParse(s: string)
    requires forall i :: 0 <= i < |s| ==> !IsDigit(s[i])
    ensures TryParseInt32(s) == None
  {
  }
}

=== FILE: tracker.dfy ===
/**
 * The browser side of the protocol: the subscription toggle behind the
 * row buttons and the reducer that folds an incoming server message into the
 * displayed stock list.
 */
module PriceTracker {
  import Wrappers
  import opened Text
  import opened Stocks

  /** A row of the price table. */
  datatype Row = Row(id: int, name: string, price: int, updatedAt: Instant)

  /** The fields of a parsed server message the reducer reads. */
  datatype Incoming = Incoming(id: int, price: int, updatedAt: Instant)

  datatype Toggled = Toggled(subscribed: set<int>, message: string)

  /**
   * `onSubscribe`: flips the id's membership in the subscribed set and emits
   * the matching protocol message.
   */
  function Toggle(subscribed: set<int>, id: int): (r: Toggled)
    ensures id in subscribed ==> id !in r.subscribed && r.message == "unsubscribe:" + IntToString(id)
    ensures id !in subscribed ==> id in r.subscribed && r.message == "subscribe:" + IntToString(id)
    ensures forall x :: x != id ==> (x in r.subscribed <==> x in subscribed)
  {
    if id in subscribed then
      Toggled(subscribed - {id}, "unsubscribe:" + IntToString(id))
    else
      Toggled(subscribed + {id}, "subscribe:" + IntToString(id))
  }

  /** Toggling the same id twice restores the set, and the two messages undo each other. */
  lemma ToggleTwice(subscribed: set<int>, id: int)
    ensures Toggle(Toggle(subscribed, id).subscribed, id).subscribed == subscribed
    ensures {Toggle(subscribed, id).message, Toggle(Toggle(subscribed, id).subscribed, id).message}
      == {"subscribe:" + IntToString(id), "unsubscribe:" + IntToString(id)}
  {
  }

  /** Whether the reducer rewrites `row` for `msg`: same id, and the price differs by `differs`. */
  predicate Qualifies(row: Row, msg: Incoming, differs: (int, int) -> bool)
  {
    msg.id == row.id && differs(msg.price, row.price)
  }

  /** The `map` over the previous list: qualifying rows take the new price and time. */
  function MapRows(rows: seq<Row>, msg: Incoming, differs: (int, int) -> bool): (r: seq<Row>)
    ensures |r| == |rows|
    ensures forall i :: 0 <= i < |rows| && !Qualifies(rows[i], msg, differs) ==> r[i] == rows[i]
    ensures forall i :: 0 <= i < |rows| && Qualifies(rows[i], msg, differs) ==>
      r[i] == rows[i].(price := msg.price, updatedAt := msg.updatedAt)
  {
    if |rows| == 0 then []
    else
      var head := if Qualifies(rows[0], msg, differs) then rows[0].(price := msg.price, updatedAt := msg.updatedAt) else rows[0];
      [head] + MapRows(rows[1..], msg, differs)
  }

  /**
   * The `setStockList` reducer, for a price-comparison predicate `differs`:
   * the mapped list if some row qualified, else the previous list as it was.
   * Length, order, ids and names are kept, and rows of other ids are untouched.
   */
  function Merge(rows: seq<Row>, msg: Incoming, differs: (int, int) -> bool): (r: seq<Row>)
    ensures |r| == |rows|
    ensures forall i :: 0 <= i < |rows| ==> r[i].id == rows[i].id && r[i].name == rows[i].name
    ensures forall i :: 0 <= i < |rows| && rows[i].id != msg.id ==> r[i] == rows[i]
    ensures forall i :: 0 <= i < |rows| && !Qualifies(rows[i], msg, differs) ==> r[i] == rows[i]
    ensures forall i :: 0 <= i < |rows| && Qualifies(rows[i], msg, differs) ==>
      r[i].price == msg.price && r[i].updatedAt == msg.updatedAt
    ensures (forall i :: 0 <= i < |rows| ==> !Qualifies(rows[i], msg, differs)) ==> r == rows
  {
    var isNewPrice := exists i :: 0 <= i < |rows| && Qualifies(rows[i], msg, differs);
    if isNewPrice then MapRows(rows, msg, differs) else rows
  }

  /**
   * `parseInt` of the decimal rendering of a price in cents: the fraction is
   * dropped, truncating toward zero to a whole number of units.
   */
  function WholeUnitCents(cents: int): (w: int)
    ensures w % 100 == 0
    ensures 0 <= cents ==> 0 <= cents - w < 100
    ensures cents < 0 ==> -100 < cents - w <= 0
  {
    if cents >= 0 then 100 * (cents / 100) else -(100 * ((-cents) / 100))
  }

  /**
   * The comparison the reducer performs: `parseInt(Price) !== stock.price`,
   * the incoming price truncated to whole units against the row's full price.
   * A row whose price has a fraction always qualifies; a row is only ever
   * judged unchanged when it lies within one unit of the incoming price.
   */
  function AsWrittenDiffers(incoming: int, current: int): (r: bool)
    ensures current % 100 != 0 ==> r
    ensures !r ==> -100 < incoming - current < 100
    ensures current % 100 == 0 && 0 <= current <= incoming < current + 100 ==> !r
    ensures current % 100 == 0 && current - 100 < incoming <= current <= 0 ==> !r
  {
    WholeUnitCents(incoming) != current
  }

  /** The comparison the reducer is meant to perform: the price changed. */
  function PriceDiffers(incoming: int, current: int): bool
  {
    incoming != current
  }

  /**
   * As written, a change from 122.00 to 122.05 is not shown: the truncated
   * incoming price equals the row's price, so no row qualifies. The handler
   * with the exact comparison shows it.
   */
  lemma AsWrittenDropsPriceChange()
    ensures var rows := [Row(1, "Tesla", 12200, 0)];
      var r := Merge(rows, Incoming(1, 12205, 1), AsWrittenDiffers);
      r == rows && r[0].price != 12205
    ensures var rows := [Row(1, "Tesla", 12200, 0)];
      var message := Json(Stock(1, Wrappers.None, 12205, 7));
      OnMessage(rows, message) == rows && OnMessageCorrected(rows, message)[0].price == 12205
  {
    assert !Qualifies(Row(1, "Tesla", 12200, 0), Incoming(1, 12205, 1), AsWrittenDiffers);
    assert !Qualifies(Row(1, "Tesla", 12200, 0), Incoming(1, 12205, 7), AsWrittenDiffers);
  }

  /**
   * With the intended comparison every row of the incoming id ends at the
   * incoming price, and its time is refreshed whenever the price moved.
   */
  lemma MergeShowsEveryPriceChange(rows: seq<Row>, msg: Incoming)
    ensures var r := Merge(rows, msg, PriceDiffers);
      forall i :: 0 <= i < |rows| && rows[i].id == msg.id ==>
        && r[i].price == msg.price
        && (rows[i].price != msg.price ==> r[i].updatedAt == msg.updatedAt)
  {
    var r := Merge(rows, msg, PriceDiffers);
    forall i | 0 <= i < |rows| && rows[i].id == msg.id
      ensures r[i].price == msg.price
    {
      if !Qualifies(rows[i], msg, PriceDiffers) {
        assert rows[i].price == msg.price;
      }
    }
  }

  /**
   * The message handler: a JSON stock (snapshot or price-only update) is
   * merged with the comparison as written; plain-text replies fail to parse
   * as JSON, the error is caught and the list stays as it was. A row of the
   * incoming id ends at the incoming price, or stays as it was when its price
   * is the incoming price truncated to whole units. A row that changes keeps
   * its id and name and takes the incoming price and time.
   */
  function OnMessage(rows: seq<Row>, message: WireMessage): (r: seq<Row>)
    ensures |r| == |rows|
    ensures message.PlainText? ==> r == rows
    ensures message.Json? ==> forall i :: 0 <= i < |rows| && rows[i].id != message.stock.id ==> r[i] == rows[i]
    ensures message.Json? ==> forall i :: 0 <= i < |rows| && rows[i].id == message.stock.id ==>
      || r[i].price == message.stock.price
      || (r[i] == rows[i] && rows[i].price == WholeUnitCents(message.stock.price))
    ensures message.Json? ==> forall i :: 0 <= i < |rows| && rows[i].id == message.stock.id && rows[i].price == WholeUnitCents(message.stock.price) ==>
      r[i] == rows[i]
    ensures message.Json? ==> forall i :: 0 <= i < |rows| && r[i] != rows[i] ==>
      r[i] == rows[i].(price := message.stock.price, updatedAt := message.stock.updatedAt)
  {
    match message
    case Json(s) => Merge(rows, Incoming(s.id, s.price, s.updatedAt), AsWrittenDiffers)
    case PlainText(_) => rows
  }

  /**
   * The handler with the intended comparison: every row of the incoming id
   * ends at the incoming price, a row that changes takes the incoming time as
   * well, and rows of other ids stay as they were.
   */
  function OnMessageCorrected(rows: seq<Row>, message: WireMessage): (r: seq<Row>)
    ensures |r| == |rows|
    ensures message.PlainText? ==> r == rows
    ensures message.Json? ==> forall i :: 0 <= i < |rows| && rows[i].id != message.stock.id ==> r[i] == rows[i]
    ensures message.Json? ==> forall i :: 0 <= i < |rows| && rows[i].id == message.stock.id ==> r[i].price == message.stock.price
    ensures message.Json? ==> forall i :: 0 <= i < |rows| && r[i] != rows[i] ==>
      r[i] == rows[i].(price := message.stock.price, updatedAt := message.stock.updatedAt)
  {
    match message
    case Json(s) =>
      var msg := Incoming(s.id, s.price, s.updatedAt);
      MergeShowsEveryPriceChange(rows, msg);
      Merge(rows, msg, PriceDiffers)
    case PlainText(_) => rows
  }
}

=== FILE: wrappers.dfy ===
/** Failure-compatible wrappers used for lookups and parses that can fail. */
module Wrappers {

  /** A value that may be absent: a failed `TryParse`, a missing key. */
  datatype Option<+T> = None | Some(value: T)

  /** The outcome of an operation that either yields a value or raises an error. */
  datatype Result<+R, +E> = Success(value: R) | Failure(error: E)
}
